=== FILE: README.md ===
# ai-ppt2video: a Dafny model of the narration pipeline

`main.py` turns a slide deck into a narrated video. For every slide it:

1. asks a vision chat model for a spoken narration (`ask_openai`), passing the slide picture, the speaker notes and the transcript of all earlier slides;
2. appends the narration to the running transcript;
3. saves the still;
4. turns the narration into speech (`generate_and_save_audio`);
5. encodes a per-slide clip (`ffmpeg_call`).

At the end it concatenates the clips into one video (`ffmpeg_concat`).

This project models that orchestration.

- **Outside collaborators are parameters.** The image encoder and the two web services are function-typed fields of `Pipeline.External`. The API key, the working directory and the output path are fields of `Pipeline.Config`.
- **Effects are a trace of events.** Every effect a call performs is recorded, in order, as a `Services.Event`: a request posted, an image saved, audio written, a clip muxed or repackaged, the final concatenation.
- **Errors are values.** The program's errors are values of `Services.Error`. They come from the exceptions `ask_openai` and `generate_and_save_audio` raise, and from the `assert` on the slide counts.

Modules:

- `Text`: decimal rendering of slide indices, `'|'.join`, and a splitting function used as its inverse.
- `Paths`: POSIX `os.path.join`, the `frame_{i}.{ext}` scratch paths, the clip list and the `concat:` argument.
- `ChatPayload`: the JSON body `ask_openai` posts, with the exact prompt texts, plus decoders that read the three arguments back out of it.
- `Services`: `ask_openai` and `generate_and_save_audio` as functions returning an outcome together with their events; `ffmpeg_call` and `ffmpeg_concat` as functions returning only the encoder runs they perform, since their exit codes are never inspected.
- `Pipeline`: the loop of `main()`, in two forms. `Fold` is a left fold over the deck, and `Main` is built on it. `Convert` is a method that runs the loop body in the source's statement order, appending each narration to `full_script` right after it arrives, and is proved equal to `Main`.

Two representation choices:

- **Chat requests record their arguments.** A request holds the bearer header and the three arguments `(base64_image, notes, prev_slide_transcript)`, and its JSON body is `Body()`. `ChatPayload.PayloadRoundTrip` shows the body determines those arguments, so a service answering bodies is the same as one answering these fields.
- **`main` never sends the beginning-of-presentation note.** `ask_openai` has a branch for it, but `main` always passes the running transcript (`''` for the first slide), so that branch is never reached from `main`. The model follows the code, and `Pipeline.MainRequestContents` and `Pipeline.MainNeverSendsBeginning` state the consequence.

## Model

| member | source | states |
|---|---|---|
| Text.Decimal | main.py:133-134 | `'{}'.format(i)` renders an index as one or more decimal digits with no leading zero |
| Text.DecimalRoundTrip | main.py:133-134 | reading the rendered digits back gives the index, so no information about the slide number is lost |
| Text.DecimalInjective | main.py:133-134 | different slide indices render as different digit strings |
| Text.JoinWith | main.py:147 | joining with a vertical bar yields the empty string for no parts; otherwise it starts with the first part and is as long as all parts together plus one separator between each pair of neighbours |
| Text.SplitJoin | main.py:147 | joining separator-free paths with a vertical bar and splitting again gives the same paths back, in order |
| Text.JoinSeparators | main.py:147 | the joined string holds exactly one vertical bar between each pair of parts and no other |
| Paths.PathJoin | main.py:133-134 | `os.path.join(dir, name)` returns an absolute name unchanged; for a relative name it starts with the directory and adds exactly one `/` between them when the directory is non-empty and does not end in one |
| Paths.FrameName | main.py:133-134 | `'frame_{}.{ext}'.format(i)` is a relative name starting with `frame_`, so joining it keeps the working directory |
| Paths.FrameNameIndex | main.py:133-134 | the digits of `frame_{i}.{ext}` read back as `i`, and the name ends with a dot and the extension |
| Paths.FramePath | main.py:133-134 | a scratch path starts with the working directory and is strictly longer than it |
| Paths.PathJoinInjective | main.py:133-134 | `os.path.join` into one directory keeps different relative names apart |
| Paths.FramePathInjective | main.py:133-134 | a scratch path determines both the slide index and the kind of artifact it belongs to |
| Paths.FramePathsDistinct | main.py:152-154 | two slides, or two kinds of artifact, never share a scratch path, so the `.ts` clip never overwrites the `.mp4` it is read from |
| Paths.ClipList | main.py:145-146 | the clip list has one entry per image, and entry `i` is `frame_{i}.ts` in the working directory |
| Paths.ClipListDistinct | main.py:145-146 | no two entries of the clip list are equal, so every slide's clip is read exactly once |
| Paths.ConcatArgument | main.py:147 | the concatenation argument starts with `concat:`; it is `concat:` alone for no clips, and otherwise the first clip follows the prefix directly |
| Paths.ConcatArgumentShape | main.py:147 | the argument starts with `concat:`; the rest splits at the vertical bars back into the clip list; it holds exactly `n - 1` separators |
| Paths.ClipListConcatShape | main.py:145-147 | for a working directory without a vertical bar, the concatenation argument names exactly the clip list, in slide order |
| ChatPayload.BuildPayload | main.py:77-111 | the body targets `gpt-4-vision-preview` with a 500-token cap and has exactly three messages: the fixed presenter prompt as system message, then two user messages |
| ChatPayload.PayloadRoundTrip | main.py:88-111 | the previous transcript (or its absence), the notes and the encoded image can all be read back unchanged from the body, so distinct calls produce distinct bodies |
| ChatPayload.ContextRoundTrip | main.py:88-103 | the context message decodes to what was passed; a fenced transcript, even an empty one, is never read as the beginning note |
| ChatPayload.TranscriptNeverBeginning | main.py:88-103 | a body built with a previous transcript never carries the beginning-of-presentation message |
| Services.ChatCallBody | main.py:73-111 | the chat request carries `Bearer <key>`, the vision model and the 500-token cap, and its body reads back to the caller's three arguments |
| Services.AskOpenAI | main.py:66-117 | without a key: fails before any request. With a key: sends exactly one request. Succeeds exactly when the reply has a non-empty `choices`, whatever the status. Returns the first choice's content. No `choices` key gives the status/body error |
| Services.ChatStatusIgnored | main.py:112-117 | two services whose replies differ only in status code give the same narration outcome |
| Services.GenerateAndSaveAudio | main.py:23-53 | without a key: fails before any request. With a key: sends one `tts-1-hd`/`echo`/`aac` request. Writes the reply bytes to the audio path and returns it exactly when the status is 200. A failed call writes nothing |
| Services.FfmpegConcat | main.py:162-164 | a single encoder run that reads the `concat:` argument exactly as given and writes the output path |
| Services.FfmpegCall | main.py:152-159 | two encoder runs: mux the still and the audio into `frame_{i}.mp4`, then repackage that file into `frame_{i}.ts`, which is a different path |
| Pipeline.TranscriptPrefix | main.py:136-137 | the transcript after any slide is a prefix of the transcript after every later slide |
| Pipeline.ProcessSlide | main.py:129-143 | one iteration performs at most six effects, and exactly six when it completes. Without a key it does nothing. A failing slide yields no clip. Its only chat request is built from the slide's image, its notes and the transcript so far. If `ask_openai` fails, the slide's outcome and effects are exactly that call's. Otherwise the slide completes exactly when `generate_and_save_audio` succeeds, returns the narration, and a failed speech call's error is the slide's error |
| Pipeline.SlideCompletion | main.py:129-143 | a completed slide performs, in order: the request, saving the still to `frame_{i}.jpg`, the speech request for the narration, writing the speech reply's bytes to `frame_{i}.aac`, muxing that still and that audio into `frame_{i}.mp4`, and repackaging `frame_{i}.mp4` into `frame_{i}.ts`. The narration is the reply's first choice |
| Pipeline.MainStepWellBehaved | main.py:128-143 | the loop body has six effects exactly on success, no clip on failure, never concatenates, and every request carries a previous transcript |
| Pipeline.Fold | main.py:128-143 | the loop completes at most one narration per slide; a run with no error completes every slide, and when each iteration performs six effects exactly on success, that run performs six per slide |
| Pipeline.FoldScript | main.py:120-137 | the running transcript always equals the concatenation, in order, of the narrations completed so far, starting from `''` |
| Pipeline.FoldFailure | main.py:128-143 | after a failure, the effects end within the failing slide's block of six, and no clip is produced at or after that slide |
| Pipeline.FoldAlways | main.py:128-143 | any property every iteration's effects have holds for every effect of the whole loop |
| Pipeline.FoldStopsAtFailure | main.py:128-143 | once a slide fails, later slides do nothing: the run equals the run up to the failure |
| Pipeline.FoldLast | main.py:128-143 | a completed run without its last slide is also completed, and its narrations and effects lead the whole run's |
| Pipeline.FoldPrefix | main.py:128-143 | in a completed run, the run over the first `k` slides completed, with the first `k` narrations and the first `6k` effects |
| Pipeline.FoldSlide | main.py:128-143 | in a completed run, slide `k`'s iteration got the transcript of slides `0..k-1`, returned narration `k`, and its six effects sit at positions `6k..6k+5` |
| Pipeline.FoldFailingSlide | main.py:128-143 | in a failed run, the slides before the failing one form a completed run whose narrations and effects lead the whole run's; the failing slide got their transcript, failed with the run's error and performed the remaining effects |
| Pipeline.FoldSlideBeforeFailure | main.py:128-143 | in a failed run, slide `j` before the failing one got the transcript of slides `0..j-1`, returned narration `j`, and its six effects sit at positions `6j..6j+5` |
| Pipeline.Notes | main.py:129-132 | a slide with a notes page hands over its text unchanged; the notes are empty exactly when there is no notes page or its text is empty |
| Pipeline.FoldSucceeds | main.py:128-143 | when every iteration completes, whatever it is handed, the whole loop completes |
| Pipeline.Zip | main.py:128 | pairs slide `k` with image `k`, for as many slides as there are |
| Pipeline.Main | main.py:119-149 | mismatched counts stop before any request. A success has one narration per slide, the transcript is their concatenation, there are six effects per slide, and the last effect concatenates the ordered clip list into the output. A failure never concatenates. No request ever lacks a previous transcript |
| Pipeline.MainSlide | main.py:128-143 | in a successful `main`, slide `k`'s iteration ran with the transcript of slides `0..k-1`; its effects are the run's effects `6k..6k+5` |
| Pipeline.MainNarration | main.py:128-137 | in a successful run, slide `k`'s request is built from its image, its notes and the narrations of slides `0..k-1`; narration `k` is the reply's first choice; the running transcript after slide `k` is the one before it plus exactly that narration |
| Pipeline.MainRunningScript | main.py:120-137 | in a successful run, the running transcript after the first `k` slides is their narrations joined in order |
| Pipeline.MainRequestContents | main.py:129-136 | in a successful run, slide `k`'s request body reads back: the previous transcript is the narrations before `k` (`''` for slide 0, not the beginning note); the notes are the notes-page text, or `''` without one; the image is the slide's encoding |
| Pipeline.MainNeverSendsBeginning | main.py:136 | whatever the outcome, no request body of a run carries the beginning-of-presentation message |
| Pipeline.MainClips | main.py:143-148 | in a successful run, slide `k` repackages into clip-list entry `k`, and the final concatenation reads exactly that list in ascending order |
| Pipeline.MainFailure | main.py:128-148 | a failed run with matching counts stopped at some slide: no clip for it or any later slide, and no video assembled |
| Pipeline.MainFailingSlide | main.py:128-143 | in a failed run with matching counts, the failing slide `k` was processed with the transcript of the `k` completed narrations; its request, if sent, carries exactly that transcript; it failed with the run's error and performed the run's effects from `6k` on |
| Pipeline.MainSlideBeforeFailure | main.py:128-143 | in a failed run with matching counts, slide `j` before the failing one sent its request with the transcript of slides `0..j-1`, returned narration `j`, and its six effects are the run's effects `6j..6j+5` |
| Pipeline.MainSucceeds | main.py:119-148 | with matching counts, the key set, a narrator whose replies always have a non-empty `choices` and a speech service that always answers 200, the run succeeds: one narration per slide, six effects per slide, and a last effect that concatenates the whole clip list into the output |
| Pipeline.MainFirstReplyWithoutChoices | main.py:112-117 | a non-empty deck whose first narration reply has no `choices` fails with that reply's status code and body text, after sending exactly that one request |
| Pipeline.MainMissingKey | main.py:68-71 | without a key, a non-empty deck fails at the first slide before any request or file is written |
| Pipeline.MainEmptyDeck | main.py:145-148 | an empty deck makes no request and concatenates the empty list (`concat:` alone) into the output |
| Pipeline.Convert | main.py:119-149 | the loop in the source's statement order (narrate, append to `full_script` at once, save the still, synthesise, encode) produces exactly the effects and outcome of `Main` |

## Left out

- Rendering the deck is not modelled: converting it to PDF with `soffice`, rasterising it with `pdf2image` and parsing it with `python-pptx` (`main.py:122-126`). Slides and images arrive as two sequences, and the notes page is an optional string per slide.
- `encode_image` is a parameter. Its transparency flattening and JPEG/base64 encoding (`main.py:56-63`) are left out because they are image processing.
- HTTP transport and JSON parsing are left out. Replies arrive already decoded: status, body text, and the list of `choices` contents (or none when the key is absent). Exceptions raised inside `requests` are not modelled.
- The `Content-Type: application/json` headers are not modelled; only the bearer token is.
- Services.AskOpenAI: assumes each choice's `message.content` is a string. A `null` content, or a choice without `message`, would raise in Python and is not modelled.
- Services.GenerateAndSaveAudio: the speed `1.1` is the real number 1.1, not a binary float.
- What ffmpeg actually does with its inputs is not modelled: each call is recorded as an effect, and its exit code is ignored, as in the source.
- `print` output and the lifetime of the temporary directory are not modelled.
- Pipeline.Main: the slide-count check comes before any effect, whereas the source renders the deck first. Rendering is not modelled.
- Pipeline.Main: assertions are assumed enabled. Under `python -O`, a count mismatch would instead be truncated by `zip`.
- The key is read once, as one optional value for the whole run. The source reads the environment variable in every call, and it is assumed not to change during a run.
- Pipeline.MainClips: the round trip from the `concat:` argument back to the clip list is proved only for a working directory whose name has no vertical bar. With one, ffmpeg would split the path itself.

=== FILE: chat_payload.dfy ===
/**
 The JSON body `ask_openai` posts to the chat-completion endpoint: the model
 name, a token budget and exactly three messages — the fixed presenter
 instruction, the context message, and the slide message carrying the speaker
 notes and the slide picture as a base64 JPEG data URL.
 */
module ChatPayload {
  import opened Common

  datatype Role = System | User

  /** One item of a multi-part message: `{"type": "text"}` or `{"type": "image_url"}`. */
  datatype Part = TextPart(text: string) | ImagePart(url: string)

  /** A message's `content`: a bare string or a list of parts. */
  datatype Content = Plain(body: string) | Parts(parts: seq<Part>)

  datatype Message = Message(role: Role, content: Content)

  datatype Payload = Payload(model: string, messages: seq<Message>, maxTokens: nat)

  const ChatModel := "gpt-4-vision-preview"
  const MaxTokens := 500

  const SystemPrompt := "You are an engaging and knowledgable presenter of a slide presentation. Given the slide content and speaker notes, generate a spoken narration for the slide. You transcript should be short, no more than 2-3 paragraphs, and in the style and quality of a good TED talk. The transcript should be only raw text, do not include markdown or URLs. It should only have what a normal person would speak aloud, in easy to understand language."

  /** Context text sent when no previous transcript is given. */
  const BeginningNote := "This is the beginning of the presentation."

  /** The previous transcript is sent between these two fences. */
  const PreviousOpen := "Previous slides transcript: \n---\n"
  const PreviousClose := "\n---"

  /** The speaker notes follow this instruction in the slide message. */
  const InstructionOpen := "Use this presentation slide along with the speaker notes to create your voiceover. Do not include a welcome or greeting unless it is the beginning of the presentation. Speaker notes: "

  const DataUrlOpen := "data:image/jpeg;base64,"

  /** `Some(m)` exactly when `s` is `open + m + close`. */
  function Unwrap(s: string, open: string, close: string): (m: Option<string>)
    ensures m.Some? ==> s == open + m.value + close
  {
    if |open| + |close| <= |s| && s[..|open|] == open && s[|s| - |close|..] == close
    then
      var m := s[|open|..|s| - |close|];
      assert s == s[..|open|] + m + s[|s| - |close|..];
      Some(m)
    else None
  }

  lemma UnwrapWrap(open: string, m: string, close: string)
    ensures Unwrap(open + m + close, open, close) == Some(m)
  {
    var s := open + m + close;
    assert s[..|open|] == open;
    assert s[|s| - |close|..] == close;
    assert s[|open|..|s| - |close|] == m;
  }

  /** The second message: the previous transcript in fences, or the beginning note for `None`. */
  function ContextMessage(prev: Option<string>): Message
  {
    var text := match prev
      case Some(t) => PreviousOpen + t + PreviousClose
      case None => BeginningNote;
    Message(User, Parts([TextPart(text)]))
  }

  /** The third message: the instruction with the notes, then the picture. */
  function SlideMessage(image64: string, notes: string): Message
  {
    Message(User, Parts([TextPart(InstructionOpen + notes), ImagePart(DataUrlOpen + image64)]))
  }

  /** The request body of `ask_openai(base64_image, notes, prev_slide_transcript)`. */
  function BuildPayload(image64: string, notes: string, prev: Option<string>): (p: Payload)
    ensures p.model == ChatModel && p.maxTokens == MaxTokens
    ensures |p.messages| == 3
    ensures p.messages[0] == Message(System, Plain(SystemPrompt))
    ensures p.messages[1].role == User && p.messages[2].role == User
  {
    Payload(ChatModel,
            [Message(System, Plain(SystemPrompt)), ContextMessage(prev), SlideMessage(image64, notes)],
            MaxTokens)
  }

  /**
   Everything the caller passes can be read back from the payload: the
   previous transcript (or its absence), the notes and the encoded image.
   So distinct calls never produce the same request body.
   */
  lemma PayloadRoundTrip(image64: string, notes: string, prev: Option<string>)
    ensures var p := BuildPayload(image64, notes, prev);
      && ContextOf(p) == Some(prev)
      && NotesOf(p) == Some(notes)
      && ImageOf(p) == Some(image64)
  {
    ContextRoundTrip(prev);
    UnwrapWrap(InstructionOpen, notes, "");
    UnwrapWrap(DataUrlOpen, image64, "");
    assert InstructionOpen + notes + "" == InstructionOpen + notes;
    assert DataUrlOpen + image64 + "" == DataUrlOpen + image64;
  }

  /** The single text of a one-part user message, if it is one. */
  function SoleText(m: Message): Option<string>
  {
    if m.role == User && m.content.Parts? && |m.content.parts| == 1 && m.content.parts[0].TextPart?
    then Some(m.content.parts[0].text) else None
  }

  /**
   Reads back what a context message carries: `Some(None)` for the beginning
   note, `Some(Some(t))` for a fenced previous transcript `t`, and `None` for
   anything else.
   */
  function ContextOfMessage(m: Message): Option<Option<string>>
  {
    match SoleText(m)
    case None => None
    case Some(t) =>
      if t == BeginningNote then Some(None)
      else match Unwrap(t, PreviousOpen, PreviousClose)
        case Some(prev) => Some(Some(prev))
        case None => None
  }

  /** What the payload's context message carries, as read by `ContextOfMessage`. */
  function ContextOf(p: Payload): Option<Option<string>>
  {
    if |p.messages| < 2 then None else ContextOfMessage(p.messages[1])
  }

  /** Reads back the speaker notes from the slide message. */
  function NotesOf(p: Payload): Option<string>
  {
    if |p.messages| < 3 then None
    else
      var m := p.messages[2];
      if m.content.Parts? && |m.content.parts| == 2 && m.content.parts[0].TextPart?
      then Unwrap(m.content.parts[0].text, InstructionOpen, "")
      else None
  }

  /** Reads back the base64 image from the slide message's data URL. */
  function ImageOf(p: Payload): Option<string>
  {
    if |p.messages| < 3 then None
    else
      var m := p.messages[2];
      if m.content.Parts? && |m.content.parts| == 2 && m.content.parts[1].ImagePart?
      then Unwrap(m.content.parts[1].url, DataUrlOpen, "")
      else None
  }

  /** The context message can be read back: a fenced transcript is never mistaken for the beginning note. */
  lemma ContextRoundTrip(prev: Option<string>)
    ensures ContextOfMessage(ContextMessage(prev)) == Some(prev)
  {
    if prev.Some? {
      var t := PreviousOpen + prev.value + PreviousClose;
      assert t[0] == 'P';
      assert BeginningNote[0] == 'T';
      UnwrapWrap(PreviousOpen, prev.value, PreviousClose);
    }
  }

  /**
   The two context variants are told apart by their text: a payload built with
   a previous transcript, even the empty one, never carries the beginning note.
   */
  lemma TranscriptNeverBeginning(image64: string, notes: string, prev: string)
    ensures BuildPayload(image64, notes, Some(prev)).messages[1] != ContextMessage(None)
    ensures ContextOf(BuildPayload(image64, notes, Some(prev))) != Some(None)
  {
    PayloadRoundTrip(image64, notes, Some(prev));
  }
}

=== FILE: common.dfy ===
/** Shared optional value, used for Python's `None`-or-value parameters. */
module Common {

  datatype Option<T> = None | Some(value: T)
}

=== FILE: paths.dfy ===
/**
 Scratch-file naming in the working area and the argument handed to the final
 concatenation: every slide `i` owns `frame_{i}.jpg`, `frame_{i}.aac`,
 `frame_{i}.mp4` and `frame_{i}.ts` under the temporary directory.
 */
module Paths {
  import Text

  const ImageExt := "jpg"
  const AudioExt := "aac"
  const MuxExt := "mp4"
  const ClipExt := "ts"

  /** The protocol prefix ffmpeg reads as "concatenate these byte streams". */
  const ConcatProtocol := "concat:"

  /**
   POSIX `os.path.join(dir, name)` for two components: an absolute name
   replaces the directory; a relative one is appended to it, with exactly one
   `/` inserted when the directory is non-empty and does not already end in
   one.
   */
  function PathJoin(dir: string, name: string): (r: string)
    ensures 0 < |name| && name[0] == '/' ==> r == name
    ensures !(0 < |name| && name[0] == '/') ==>
      && dir <= r
      && |r| == |dir| + |name| + (if |dir| == 0 || dir[|dir| - 1] == '/' then 0 else 1)
  {
    if 0 < |name| && name[0] == '/' then name
    else if |dir| == 0 || dir[|dir| - 1] == '/' then dir + name
    else dir + "/" + name
  }

  /**
   `'frame_{}.{ext}'.format(i)`: a relative name starting with `frame_`, so
   joining it onto the working area never discards the directory.
   */
  function FrameName(i: nat, ext: string): (r: string)
    ensures "frame_" <= r && r[0] != '/'
  {
    "frame_" + Text.Decimal(i) + "." + ext
  }

  /** The digits of a frame name read back as the slide index, and the extension follows the only dot after them. */
  lemma FrameNameIndex(i: nat, ext: string)
    ensures var r := FrameName(i, ext);
      && |r| == 7 + |Text.Decimal(i)| + |ext|
      && r[|r| - |ext| - 1..] == "." + ext
      && Text.AllDigits(r[6..|r| - |ext| - 1])
      && Text.ParseDecimal(r[6..|r| - |ext| - 1]) == i
  {
    var r := FrameName(i, ext);
    assert r[6..|r| - |ext| - 1] == Text.Decimal(i);
    Text.DecimalRoundTrip(i);
  }

  /** The scratch path of slide `i`'s artifact of kind `ext`: the working area followed by the frame name. */
  function FramePath(dir: string, i: nat, ext: string): (r: string)
    ensures dir <= r && |dir| < |r|
  {
    PathJoin(dir, FrameName(i, ext))
  }

  /** Two strings without a dot, each followed by a dot and a tail, split at the same place. */
  lemma SplitAtDot(a: string, x: string, b: string, y: string)
    requires '.' !in a && '.' !in b
    requires a + "." + x == b + "." + y
    ensures a == b && x == y
  {
    Text.FirstSeparator(a, '.', x);
    Text.FirstSeparator(b, '.', y);
  }

  lemma PathJoinInjective(dir: string, x: string, y: string)
    requires 0 < |x| && x[0] != '/' && 0 < |y| && y[0] != '/'
    requires PathJoin(dir, x) == PathJoin(dir, y)
    ensures x == y
  {
    if |dir| == 0 || dir[|dir| - 1] == '/' {
      assert x == (dir + x)[|dir|..];
      assert y == (dir + y)[|dir|..];
    } else {
      assert x == (dir + "/" + x)[|dir| + 1..];
      assert y == (dir + "/" + y)[|dir| + 1..];
    }
  }

  /**
   Scratch paths never collide: within one working area a path determines the
   slide index and the artifact kind it belongs to.
   */
  lemma FramePathInjective(dir: string, i: nat, e: string, j: nat, f: string)
    requires FramePath(dir, i, e) == FramePath(dir, j, f)
    ensures i == j && e == f
  {
    var x, y := FrameName(i, e), FrameName(j, f);
    assert x[0] == 'f' && y[0] == 'f';
    PathJoinInjective(dir, x, y);
    var di, dj := Text.Decimal(i), Text.Decimal(j);
    assert x == "frame_" + (di + "." + e);
    assert y == "frame_" + (dj + "." + f);
    assert di + "." + e == x[6..] == y[6..] == dj + "." + f;
    assert '.' !in di;
    assert '.' !in dj;
    SplitAtDot(di, e, dj, f);
    Text.DecimalInjective(i, j);
  }

  /** Different slides, or different kinds of artifact, get different scratch paths. */
  lemma FramePathsDistinct(dir: string, i: nat, e: string, j: nat, f: string)
    requires i != j || e != f
    ensures FramePath(dir, i, e) != FramePath(dir, j, f)
  {
    if FramePath(dir, i, e) == FramePath(dir, j, f) {
      FramePathInjective(dir, i, e, j, f);
    }
  }

  /**
   The clip list `[join(dir, 'frame_{}.ts'.format(i)) for i in range(n)]`:
   one transport-stream path per slide, in ascending slide order.
   */
  function ClipList(dir: string, n: nat): (clips: seq<string>)
    ensures |clips| == n
    ensures forall i :: 0 <= i < n ==> clips[i] == FramePath(dir, i, ClipExt)
  {
    seq(n, (i: int) requires 0 <= i < n => FramePath(dir, i, ClipExt))
  }

  /** No two slides share a clip, so the concatenation reads each slide's clip once. */
  lemma ClipListDistinct(dir: string, n: nat)
    ensures forall i, j :: 0 <= i < j < n ==> ClipList(dir, n)[i] != ClipList(dir, n)[j]
  {
    var clips := ClipList(dir, n);
    forall i, j | 0 <= i < j < n
      ensures clips[i] != clips[j]
    {
      if clips[i] == clips[j] {
        FramePathInjective(dir, i, ClipExt, j, ClipExt);
      }
    }
  }

  /** `'concat:' + '|'.join(clips)`: the protocol prefix, then the first clip, when there is one. */
  function ConcatArgument(clips: seq<string>): (r: string)
    ensures ConcatProtocol <= r
    ensures |clips| == 0 ==> r == ConcatProtocol
    ensures 1 <= |clips| ==> clips[0] <= r[|ConcatProtocol|..]
  {
    ConcatProtocol + Text.JoinWith('|', clips)
  }

  /**
   The concatenation argument is the protocol prefix followed by the clips:
   splitting what follows the prefix at `|` gives the clip list back in order,
   and there are exactly `n - 1` separators, provided no clip path holds `|`.
   */
  lemma ConcatArgumentShape(clips: seq<string>)
    requires 1 <= |clips|
    requires forall k :: 0 <= k < |clips| ==> '|' !in clips[k]
    ensures |ConcatProtocol| <= |ConcatArgument(clips)|
    ensures ConcatArgument(clips)[..|ConcatProtocol|] == ConcatProtocol
    ensures Text.Split(ConcatArgument(clips)[|ConcatProtocol|..], '|') == clips
    ensures Text.Occurrences(ConcatArgument(clips), '|') == |clips| - 1
  {
    var arg := ConcatArgument(clips);
    var joined := Text.JoinWith('|', clips);
    assert arg[|ConcatProtocol|..] == joined;
    Text.SplitJoin('|', clips);
    Text.JoinSeparators('|', clips);
    assert multiset(arg) == multiset(ConcatProtocol) + multiset(joined);
    assert '|' !in ConcatProtocol;
  }

  /** A working area whose name has no `|` yields clip paths without one. */
  lemma FramePathWithoutBar(dir: string, i: nat, ext: string)
    requires '|' !in dir && '|' !in ext
    ensures '|' !in FramePath(dir, i, ext)
  {
    var d := Text.Decimal(i);
    assert '|' !in d;
    var name := FrameName(i, ext);
    assert name == "frame_" + d + "." + ext;
    assert '|' !in name;
  }

  lemma ClipListWithoutBar(dir: string, n: nat)
    requires '|' !in dir
    ensures forall k :: 0 <= k < n ==> '|' !in ClipList(dir, n)[k]
  {
    forall k | 0 <= k < n
      ensures '|' !in ClipList(dir, n)[k]
    {
      FramePathWithoutBar(dir, k, ClipExt);
    }
  }

  /** The concatenation argument for a working area without `|` names the clip list in order. */
  lemma ClipListConcatShape(dir: string, n: nat)
    requires 1 <= n
    requires '|' !in dir
    ensures Text.Split(ConcatArgument(ClipList(dir, n))[|ConcatProtocol|..], '|') == ClipList(dir, n)
    ensures Text.Occurrences(ConcatArgument(ClipList(dir, n)), '|') == n - 1
  {
    ClipListWithoutBar(dir, n);
    ConcatArgumentShape(ClipList(dir, n));
  }
}

=== FILE: pipeline.dfy ===
/**
 The orchestration in `main()`: check that the deck parser and the PDF
 rasterizer agree on the slide count, then process the slides in order as a
 left fold that threads the running transcript, and finally concatenate the
 per-slide clips into the output video.
 */
module Pipeline {
  import opened Common
  import opened ChatPayload
  import opened Services
  import Paths
  import Text

  /** A slide as the deck parser reports it: the text of its notes page, if it has one. */
  datatype Slide = Slide(notesPage: Option<string>)

  /** The key from the environment, the working area, and the output video path. */
  datatype Config = Config(apiKey: Option<string>, tempPath: string, outputPath: string)

  /** The outside collaborators: the image encoder and the two web services. */
  datatype External = External(encode: Image -> string,
                               chat: ChatRequest -> ChatReply,
                               speech: SpeechRequest -> SpeechReply)

  /** A finished run: the full transcript printed at the end, and each slide's narration as logged. */
  datatype RunOutput = RunOutput(transcript: string, narrations: seq<string>)

  /**
   The fold's accumulator: the running transcript, the narrations of the
   slides completed so far, the effects so far, and the error that stopped
   the run, if any.
   */
  datatype Progress = Progress(script: string, narrations: seq<string>, events: seq<Event>, failure: Option<Error>)

  /** A completed slide performs exactly this many effects. */
  const EventsPerSlide := 6

  /** The notes handed to the narrator: the notes page text, or `''` without one. */
  function Notes(slide: Slide): (notes: string)
    ensures slide.notesPage.Some? ==> notes == slide.notesPage.value
    ensures notes == "" <==> slide.notesPage.None? || slide.notesPage.value == ""
  {
    match slide.notesPage
    case Some(text) => text
    case None => ""
  }

  /** Narrations appended one after the other, starting from `''`. */
  function Transcript(narrations: seq<string>): string
  {
    if |narrations| == 0 then ""
    else Transcript(narrations[..|narrations| - 1]) + narrations[|narrations| - 1]
  }

  /** The transcript after any slide is a prefix of every later one. */
  lemma {:induction false} TranscriptPrefix(narrations: seq<string>, k: nat)
    requires k <= |narrations|
    ensures Transcript(narrations[..k]) <= Transcript(narrations)
  {
    if k < |narrations| {
      var n := |narrations|;
      assert narrations[..n - 1][..k] == narrations[..k];
      TranscriptPrefix(narrations[..n - 1], k);
    } else {
      assert narrations[..k] == narrations;
    }
  }

  /** The request the narrator sends for `image` and `slide`, given the transcript so far. */
  function NarrationCall(apiKey: string, ext: External, slide: Slide, image: Image, script: string): ChatRequest
  {
    ChatCall(apiKey, ext.encode(image), Notes(slide), Some(script))
  }

  /**
   One iteration of the loop in `main` for slide `i`: narrate with the running
   transcript as context, save the still, synthesise the narration, and encode
   the clip. A slide completes with exactly six effects; a failing slide
   performs fewer and never produces its clip.
   */
  function ProcessSlide(cfg: Config, ext: External, i: nat, slide: Slide, image: Image, script: string): (s: Step<string>)
    ensures |s.events| <= EventsPerSlide
    ensures s.result.Ok? <==> |s.events| == EventsPerSlide
    ensures cfg.apiKey.None? ==> s == Step(Err(MissingApiKey), [])
    ensures s.result.Err? ==> forall k :: 0 <= k < |s.events| ==> !s.events[k].Repackage?
    ensures forall k :: 0 <= k < |s.events| ==> !s.events[k].ConcatClips?
    ensures forall k :: 0 <= k < |s.events| && s.events[k].PostChat? ==>
      cfg.apiKey.Some? && s.events[k].chat == NarrationCall(cfg.apiKey.value, ext, slide, image, script)
    ensures var asked := AskOpenAI(cfg.apiKey, ext.chat, ext.encode(image), Notes(slide), Some(script));
      && (asked.result.Err? ==> s == asked)
      && (asked.result.Ok? ==>
            var audio := GenerateAndSaveAudio(cfg.apiKey, ext.speech, asked.result.value,
                                              Paths.FramePath(cfg.tempPath, i, Paths.AudioExt));
            && (s.result.Ok? <==> audio.result.Ok?)
            && (s.result.Ok? ==> s.result.value == asked.result.value)
            && (audio.result.Err? ==> s.result.error == audio.result.error))
  {
    var notes := Notes(slide);
    var imagePath := Paths.FramePath(cfg.tempPath, i, Paths.ImageExt);
    var audioPath := Paths.FramePath(cfg.tempPath, i, Paths.AudioExt);
    var asked := AskOpenAI(cfg.apiKey, ext.chat, ext.encode(image), notes, Some(script));
    if asked.result.Err? then asked
    else
      var narration := asked.result.value;
      var saved := asked.events + [SaveImage(imagePath, image)];
      var audio := GenerateAndSaveAudio(cfg.apiKey, ext.speech, narration, audioPath);
      assert |saved + audio.events| <= 4;
      if audio.result.Err? then Step(Err(audio.result.error), saved + audio.events)
      else
        Step(Ok(narration), saved + audio.events + FfmpegCall(imagePath, audioPath, cfg.tempPath, i))
  }

  /**
   A completed slide: the narration is the first choice of the reply to a
   request built from the slide's image, its notes and the transcript so far;
   the still, the audio and the clip go to the slide's own scratch paths.
   */
  lemma SlideCompletion(cfg: Config, ext: External, i: nat, slide: Slide, image: Image, script: string)
    requires ProcessSlide(cfg, ext, i, slide, image, script).result.Ok?
    ensures cfg.apiKey.Some?
    ensures var s := ProcessSlide(cfg, ext, i, slide, image, script);
      var request := NarrationCall(cfg.apiKey.value, ext, slide, image, script);
      && s.events[0] == PostChat(request)
      && ext.chat(request).choices.Some?
      && 0 < |ext.chat(request).choices.value|
      && s.result.value == ext.chat(request).choices.value[0]
      && s.events[1] == SaveImage(Paths.FramePath(cfg.tempPath, i, Paths.ImageExt), image)
      && s.events[2] == PostSpeech(SpeechCall(cfg.apiKey.value, s.result.value))
      && s.events[3] == WriteAudio(Paths.FramePath(cfg.tempPath, i, Paths.AudioExt),
                                   ext.speech(SpeechCall(cfg.apiKey.value, s.result.value)).content)
      && s.events[4] == Mux(Paths.FramePath(cfg.tempPath, i, Paths.ImageExt),
                            Paths.FramePath(cfg.tempPath, i, Paths.AudioExt),
                            Paths.FramePath(cfg.tempPath, i, Paths.MuxExt))
      && s.events[5] == Repackage(Paths.FramePath(cfg.tempPath, i, Paths.MuxExt),
                                  Paths.FramePath(cfg.tempPath, i, Paths.ClipExt))
  {
  }

  /** One iteration of the loop, as a function of the slide index, the slide, its image and the transcript so far. */
  type SlideStep = (nat, Slide, Image, string) -> Step<string>

  /** The iteration of `main` for a given configuration and set of collaborators. */
  function MainStep(cfg: Config, ext: External): SlideStep
  {
    (i: nat, slide: Slide, image: Image, script: string) => ProcessSlide(cfg, ext, i, slide, image, script)
  }

  /**
   What the fold needs of one iteration's outcome: a completed slide performs
   exactly six effects and a failing one fewer.
   */
  predicate Counted(s: Step<string>)
  {
    && |s.events| <= EventsPerSlide
    && (s.result.Ok? <==> |s.events| == EventsPerSlide)
  }

  predicate AllEvents(events: seq<Event>, ok: Event -> bool)
  {
    forall k :: 0 <= k < |events| ==> ok(events[k])
  }

  predicate NotClip(e: Event) { !e.Repackage? }
  predicate NotConcat(e: Event) { !e.ConcatClips? }
  /** A chat request that carries a previous transcript rather than the beginning note. */
  predicate HasContext(e: Event) { e.PostChat? ==> e.chat.prev.Some? }

  ghost predicate Sized(step: SlideStep)
  {
    forall i: nat, slide: Slide, image: Image, script: string :: Counted(step(i, slide, image, script))
  }

  /** A failing iteration never yields its clip. */
  ghost predicate ClipsOnSuccess(step: SlideStep)
  {
    forall i: nat, slide: Slide, image: Image, script: string ::
      step(i, slide, image, script).result.Err? ==> AllEvents(step(i, slide, image, script).events, NotClip)
  }

  /** Every effect of every iteration satisfies `ok`. */
  ghost predicate Always(step: SlideStep, ok: Event -> bool)
  {
    forall i: nat, slide: Slide, image: Image, script: string :: AllEvents(step(i, slide, image, script).events, ok)
  }

  /**
   The iteration of `main` performs six effects exactly when it completes,
   yields no clip when it fails, never concatenates, and only ever sends
   requests that carry a previous transcript.
   */
  lemma MainStepWellBehaved(cfg: Config, ext: External)
    ensures Sized(MainStep(cfg, ext))
    ensures ClipsOnSuccess(MainStep(cfg, ext))
    ensures Always(MainStep(cfg, ext), NotConcat)
    ensures Always(MainStep(cfg, ext), HasContext)
  {
    forall i: nat, slide: Slide, image: Image, script: string
      ensures AllEvents(MainStep(cfg, ext)(i, slide, image, script).events, HasContext)
    {
      var s := ProcessSlide(cfg, ext, i, slide, image, script);
      assert forall k :: 0 <= k < |s.events| && s.events[k].PostChat? ==>
        cfg.apiKey.Some? && s.events[k].chat == NarrationCall(cfg.apiKey.value, ext, slide, image, script);
    }
  }

  /** The iteration for slide `i` on top of a run that has not failed. */
  function Advance(step: SlideStep, p: Progress, i: nat, slide: Slide, image: Image): Progress
    requires p.failure.None?
  {
    var s := step(i, slide, image, p.script);
    match s.result
    case Ok(narration) => Progress(p.script + narration, p.narrations + [narration], p.events + s.events, None)
    case Err(e) => Progress(p.script, p.narrations, p.events + s.events, Some(e))
  }

  /**
   The loop of `main` over the first `|deck|` slides, as a left fold: the
   transcript starts as `''` and grows by one narration per completed slide,
   and the first error stops the run.
   */
  function Fold(step: SlideStep, deck: seq<(Slide, Image)>): (p: Progress)
    ensures |p.narrations| <= |deck|
    ensures p.failure.None? ==> |p.narrations| == |deck|
    ensures p.failure.None? && Sized(step) ==> |p.events| == EventsPerSlide * |deck|
    decreases |deck|
  {
    if |deck| == 0 then Progress("", [], [], None)
    else
      var n := |deck| - 1;
      var p := Fold(step, deck[..n]);
      if p.failure.Some? then p
      else
        var q := Advance(step, p, n, deck[n].0, deck[n].1);
        assert q.events == p.events + step(n, deck[n].0, deck[n].1, p.script).events;
        q
  }

  /** The transcript the fold carries is always the concatenation of the narrations so far. */
  lemma {:induction false} FoldScript(step: SlideStep, deck: seq<(Slide, Image)>)
    ensures Fold(step, deck).script == Transcript(Fold(step, deck).narrations)
    decreases |deck|
  {
    if |deck| > 0 {
      var n := |deck| - 1;
      FoldScript(step, deck[..n]);
      var p := Fold(step, deck[..n]);
      if p.failure.None? {
        var q := Advance(step, p, n, deck[n].0, deck[n].1);
        assert q.narrations == p.narrations || q.narrations[..|p.narrations|] == p.narrations;
      }
    }
  }

  /**
   When an iteration yields no clip on failure, no slide at or after the
   failing one yields a clip, and the failing slide's effects are fewer than
   six.
   */
  lemma {:induction false} FoldFailure(step: SlideStep, deck: seq<(Slide, Image)>)
    requires Sized(step)
    requires ClipsOnSuccess(step)
    ensures var p := Fold(step, deck);
      p.failure.Some? ==>
        && EventsPerSlide * |p.narrations| <= |p.events| < EventsPerSlide * (|p.narrations| + 1)
        && forall k :: EventsPerSlide * |p.narrations| <= k < |p.events| ==> !p.events[k].Repackage?
    decreases |deck|
  {
    if |deck| > 0 {
      var n := |deck| - 1;
      FoldFailure(step, deck[..n]);
      var p := Fold(step, deck[..n]);
      if p.failure.None? {
        var s := step(n, deck[n].0, deck[n].1, p.script);
        assert Counted(s);
        assert s.result.Err? ==> AllEvents(s.events, NotClip);
        var q := Advance(step, p, n, deck[n].0, deck[n].1);
        assert q.events == p.events + s.events;
      }
    }
  }

  /** A property every effect of every iteration has, every effect of the fold has. */
  lemma {:induction false} FoldAlways(step: SlideStep, ok: Event -> bool, deck: seq<(Slide, Image)>)
    requires Always(step, ok)
    ensures AllEvents(Fold(step, deck).events, ok)
    decreases |deck|
  {
    if |deck| > 0 {
      var n := |deck| - 1;
      FoldAlways(step, ok, deck[..n]);
      var p := Fold(step, deck[..n]);
      if p.failure.None? {
        var s := step(n, deck[n].0, deck[n].1, p.script);
        var q := Advance(step, p, n, deck[n].0, deck[n].1);
        assert q.events == p.events + s.events;
        assert AllEvents(s.events, ok);
        forall k | 0 <= k < |q.events|
          ensures ok(q.events[k])
        {
          if k < |p.events| {
            assert q.events[k] == p.events[k];
          } else {
            assert q.events[k] == s.events[k - |p.events|];
          }
        }
      }
    }
  }

  /** Pairs the parser's slides with the rasterized images, as `zip` does. */
  function Zip(slides: seq<Slide>, images: seq<Image>): (deck: seq<(Slide, Image)>)
    requires |slides| == |images|
    ensures |deck| == |slides|
    ensures forall k :: 0 <= k < |deck| ==> deck[k] == (slides[k], images[k])
  {
    seq(|slides|, (k: int) requires 0 <= k < |slides| => (slides[k], images[k]))
  }

  /**
   `main()`: with a slide count that differs from the image count it stops
   before any request; otherwise it runs the fold and, if every slide
   completed, concatenates the clip list into the output path as its last
   effect. A failed run never concatenates, and no run ever sends the
   beginning-of-presentation note.
   */
  function Main(cfg: Config, ext: External, slides: seq<Slide>, images: seq<Image>): (r: Step<RunOutput>)
    ensures |slides| != |images| ==> r == Step(Err(CountMismatch(|images|, |slides|)), [])
    ensures r.result.Ok? ==>
      && |slides| == |images|
      && |r.result.value.narrations| == |slides|
      && r.result.value.transcript == Transcript(r.result.value.narrations)
      && |r.events| == EventsPerSlide * |slides| + 1
      && r.events[|r.events| - 1] ==
           ConcatClips(Paths.ConcatArgument(Paths.ClipList(cfg.tempPath, |images|)), cfg.outputPath)
    ensures r.result.Err? ==> forall k :: 0 <= k < |r.events| ==> !r.events[k].ConcatClips?
    ensures forall k :: 0 <= k < |r.events| && r.events[k].PostChat? ==>
      r.events[k].chat.prev.Some?
  {
    if |images| != |slides| then Step(Err(CountMismatch(|images|, |slides|)), [])
    else
      var deck := Zip(slides, images);
      MainStepWellBehaved(cfg, ext);
      FoldAlways(MainStep(cfg, ext), NotConcat, deck);
      FoldAlways(MainStep(cfg, ext), HasContext, deck);
      FoldScript(MainStep(cfg, ext), deck);
      var p := Fold(MainStep(cfg, ext), deck);
      match p.failure
      case Some(e) => Step(Err(e), p.events)
      case None =>
        var clips := Paths.ClipList(cfg.tempPath, |images|);
        Step(Ok(RunOutput(p.script, p.narrations)),
             p.events + [FfmpegConcat(Paths.ConcatArgument(clips), cfg.outputPath)])
  }

  /** A failed prefix decides the whole run: later slides do nothing. */
  lemma {:induction false} FoldStopsAtFailure(step: SlideStep, deck: seq<(Slide, Image)>, k: nat)
    requires k <= |deck|
    requires Fold(step, deck[..k]).failure.Some?
    ensures Fold(step, deck) == Fold(step, deck[..k])
    decreases |deck|
  {
    if k == |deck| {
      assert deck[..k] == deck;
    } else {
      var n := |deck| - 1;
      assert deck[..n][..k] == deck[..k];
      FoldStopsAtFailure(step, deck[..n], k);
    }
  }

  /**
   In a run where every slide completed, the run without its last slide also
   completed, and its narrations and effects are the leading part of the
   whole run's.
   */
  lemma FoldLast(step: SlideStep, deck: seq<(Slide, Image)>)
    requires Sized(step)
    requires 0 < |deck|
    requires Fold(step, deck).failure.None?
    ensures var n := |deck| - 1;
      var p := Fold(step, deck);
      var q := Fold(step, deck[..n]);
      && q.failure.None?
      && |q.events| == EventsPerSlide * n
      && p.narrations[..n] == q.narrations
      && p.events[..EventsPerSlide * n] == q.events
  {
    var n := |deck| - 1;
    var q := Fold(step, deck[..n]);
    var s := step(n, deck[n].0, deck[n].1, q.script);
    var p := Advance(step, q, n, deck[n].0, deck[n].1);
    assert p.events == q.events + s.events;
  }

  /**
   In a run where every slide completed, the run over the first `k` slides
   also completed, with the first `k` narrations and the first `6k` effects
   of the whole run.
   */
  lemma {:induction false} FoldPrefix(step: SlideStep, deck: seq<(Slide, Image)>, k: nat)
    requires Sized(step)
    requires k <= |deck|
    requires Fold(step, deck).failure.None?
    ensures var p := Fold(step, deck);
      var r := Fold(step, deck[..k]);
      && r.failure.None?
      && r.narrations == p.narrations[..k]
      && r.events == p.events[..EventsPerSlide * k]
    decreases |deck|
  {
    var p := Fold(step, deck);
    if k == |deck| {
      assert deck[..k] == deck;
    } else {
      var n := |deck| - 1;
      var q := Fold(step, deck[..n]);
      FoldLast(step, deck);
      FoldPrefix(step, deck[..n], k);
      assert deck[..n][..k] == deck[..k];
      assert q.narrations[..k] == p.narrations[..k];
      assert q.events[..EventsPerSlide * k] == p.events[..EventsPerSlide * k];
    }
  }

  /**
   Slide `k` of a completed run: its iteration was handed exactly the
   transcript of slides `0..k-1`, its effects occupy positions `6k..6k+5`,
   and its narration is what that iteration returned.
   */
  lemma FoldSlide(step: SlideStep, deck: seq<(Slide, Image)>, k: nat)
    requires Sized(step)
    requires k < |deck|
    requires Fold(step, deck).failure.None?
    ensures var p := Fold(step, deck);
      var s := step(k, deck[k].0, deck[k].1, Transcript(p.narrations[..k]));
      && s.result == Ok(p.narrations[k])
      && |s.events| == EventsPerSlide
      && p.events[EventsPerSlide * k..EventsPerSlide * (k + 1)] == s.events
  {
    var p := Fold(step, deck);
    FoldPrefix(step, deck, k);
    FoldPrefix(step, deck, k + 1);
    var before := Fold(step, deck[..k]);
    FoldScript(step, deck[..k]);
    assert deck[..k + 1][..k] == deck[..k];
    assert deck[..k + 1][k] == deck[k];
    var s := step(k, deck[k].0, deck[k].1, before.script);
    assert Fold(step, deck[..k + 1]) == Advance(step, before, k, deck[k].0, deck[k].1);
    assert p.narrations[..k + 1][k] == p.narrations[k];
    assert p.events[..EventsPerSlide * (k + 1)][EventsPerSlide * k..] == p.events[EventsPerSlide * k..EventsPerSlide * (k + 1)];
  }

  /**
   A failed run: the slides before the failing one completed, forming a
   completed run of their own whose narrations and effects lead the whole
   run's; the failing slide's iteration was handed their transcript, failed
   with the run's error, and performed the run's remaining effects.
   */
  lemma {:induction false} FoldFailingSlide(step: SlideStep, deck: seq<(Slide, Image)>)
    requires Sized(step)
    requires Fold(step, deck).failure.Some?
    ensures var p := Fold(step, deck);
      var k := |p.narrations|;
      && k < |deck|
      && var q := Fold(step, deck[..k]);
      && q.failure.None?
      && q.narrations == p.narrations
      && |q.events| == EventsPerSlide * k
      && var s := step(k, deck[k].0, deck[k].1, q.script);
      && s.result.Err?
      && p.failure == Some(s.result.error)
      && p.events == q.events + s.events
    decreases |deck|
  {
    var n := |deck| - 1;
    var r := Fold(step, deck[..n]);
    if r.failure.Some? {
      FoldFailingSlide(step, deck[..n]);
      var k := |r.narrations|;
      assert deck[..n][..k] == deck[..k];
      assert deck[..n][k] == deck[k];
    } else {
      assert deck[..n] == deck[..|r.narrations|];
    }
  }

  /** In a failed run, a slide before the failing one completed as it would in a completed run. */
  lemma FoldSlideBeforeFailure(step: SlideStep, deck: seq<(Slide, Image)>, j: nat)
    requires Sized(step)
    requires Fold(step, deck).failure.Some?
    requires j < |Fold(step, deck).narrations|
    ensures var p := Fold(step, deck);
      var s := step(j, deck[j].0, deck[j].1, Transcript(p.narrations[..j]));
      && s.result == Ok(p.narrations[j])
      && |s.events| == EventsPerSlide
      && EventsPerSlide * (j + 1) <= |p.events|
      && p.events[EventsPerSlide * j..EventsPerSlide * (j + 1)] == s.events
  {
    FoldFailingSlide(step, deck);
    var p := Fold(step, deck);
    var k := |p.narrations|;
    var q := Fold(step, deck[..k]);
    FoldSlide(step, deck[..k], j);
    assert deck[..k][j] == deck[j];
    assert p.events[EventsPerSlide * j..EventsPerSlide * (j + 1)] == q.events[EventsPerSlide * j..EventsPerSlide * (j + 1)];
  }

  /**
   A failed run whose slide counts matched, seen from the failing slide `k`:
   slides `0..k-1` completed with the narrations of the run, and slide `k` was
   processed with their transcript as context — its request, if it got that
   far, carries exactly that transcript — and failed with the run's error,
   performing the run's effects from position `6k` on.
   */
  lemma MainFailingSlide(cfg: Config, ext: External, slides: seq<Slide>, images: seq<Image>)
    requires |slides| == |images|
    requires Main(cfg, ext, slides, images).result.Err?
    ensures var r := Main(cfg, ext, slides, images);
      var narrations := Fold(MainStep(cfg, ext), Zip(slides, images)).narrations;
      var k := |narrations|;
      && k < |slides|
      && EventsPerSlide * k <= |r.events|
      && var s := ProcessSlide(cfg, ext, k, slides[k], images[k], Transcript(narrations));
      && s.result.Err? && r.result.error == s.result.error
      && r.events[EventsPerSlide * k..] == s.events
      && forall j :: EventsPerSlide * k <= j < |r.events| && r.events[j].PostChat? ==>
           cfg.apiKey.Some? && r.events[j].chat == NarrationCall(cfg.apiKey.value, ext, slides[k], images[k], Transcript(narrations))
  {
    var deck := Zip(slides, images);
    var step := MainStep(cfg, ext);
    MainStepWellBehaved(cfg, ext);
    FoldFailingSlide(step, deck);
    var p := Fold(step, deck);
    var k := |p.narrations|;
    FoldScript(step, deck[..k]);
    var r := Main(cfg, ext, slides, images);
    var s := ProcessSlide(cfg, ext, k, slides[k], images[k], Transcript(p.narrations));
    assert r.events[EventsPerSlide * k..] == s.events;
    forall j | EventsPerSlide * k <= j < |r.events| && r.events[j].PostChat?
      ensures cfg.apiKey.Some? && r.events[j].chat == NarrationCall(cfg.apiKey.value, ext, slides[k], images[k], Transcript(p.narrations))
    {
      assert r.events[j] == s.events[j - EventsPerSlide * k];
    }
  }

  /**
   A failed run whose slide counts matched, seen from a slide `j` before the
   failing one: it completed exactly as in a successful run — its request
   carried the transcript of slides `0..j-1`, its iteration returned
   narration `j`, and its six effects are the run's effects `6j..6j+5`.
   */
  lemma MainSlideBeforeFailure(cfg: Config, ext: External, slides: seq<Slide>, images: seq<Image>, j: nat)
    requires |slides| == |images|
    requires Main(cfg, ext, slides, images).result.Err?
    requires j < |Fold(MainStep(cfg, ext), Zip(slides, images)).narrations|
    ensures var r := Main(cfg, ext, slides, images);
      var narrations := Fold(MainStep(cfg, ext), Zip(slides, images)).narrations;
      var s := ProcessSlide(cfg, ext, j, slides[j], images[j], Transcript(narrations[..j]));
      && s.result == Ok(narrations[j])
      && |s.events| == EventsPerSlide
      && EventsPerSlide * (j + 1) <= |r.events|
      && r.events[EventsPerSlide * j..EventsPerSlide * (j + 1)] == s.events
    ensures cfg.apiKey.Some?
    ensures var narrations := Fold(MainStep(cfg, ext), Zip(slides, images)).narrations;
      Main(cfg, ext, slides, images).events[EventsPerSlide * j] ==
        PostChat(NarrationCall(cfg.apiKey.value, ext, slides[j], images[j], Transcript(narrations[..j])))
  {
    MainStepWellBehaved(cfg, ext);
    FoldSlideBeforeFailure(MainStep(cfg, ext), Zip(slides, images), j);
    var r := Main(cfg, ext, slides, images);
    var narrations := Fold(MainStep(cfg, ext), Zip(slides, images)).narrations;
    var s := ProcessSlide(cfg, ext, j, slides[j], images[j], Transcript(narrations[..j]));
    SlideCompletion(cfg, ext, j, slides[j], images[j], Transcript(narrations[..j]));
    assert r.events[EventsPerSlide * j..EventsPerSlide * (j + 1)][0] == s.events[0];
  }

  /** Slide `k` of a successful `main`, read off the fold. */
  lemma MainSlide(cfg: Config, ext: External, slides: seq<Slide>, images: seq<Image>, k: nat)
    requires Main(cfg, ext, slides, images).result.Ok?
    requires k < |slides|
    ensures |images| == |slides|
    ensures var r := Main(cfg, ext, slides, images);
      var s := ProcessSlide(cfg, ext, k, slides[k], images[k], Transcript(r.result.value.narrations[..k]));
      && s.result == Ok(r.result.value.narrations[k])
      && |s.events| == EventsPerSlide
      && forall j :: 0 <= j < EventsPerSlide ==> r.events[EventsPerSlide * k + j] == s.events[j]
  {
    var r := Main(cfg, ext, slides, images);
    var deck := Zip(slides, images);
    MainStepWellBehaved(cfg, ext);
    var p := Fold(MainStep(cfg, ext), deck);
    FoldSlide(MainStep(cfg, ext), deck, k);
    var s := ProcessSlide(cfg, ext, k, slides[k], images[k], Transcript(p.narrations[..k]));
    forall j | 0 <= j < EventsPerSlide
      ensures r.events[EventsPerSlide * k + j] == s.events[j]
    {
      assert r.events[EventsPerSlide * k + j] == p.events[EventsPerSlide * k + j];
      assert p.events[EventsPerSlide * k..EventsPerSlide * (k + 1)][j] == p.events[EventsPerSlide * k + j];
    }
  }

  /**
   Slide `k` of a successful run of `main`: the narrator is asked with that
   slide's image and notes and with the concatenated narrations of the slides
   before it; the slide's narration is the first choice of the reply, and the
   transcript after slide `k` extends the one before it by exactly that
   narration.
   */
  lemma MainNarration(cfg: Config, ext: External, slides: seq<Slide>, images: seq<Image>, k: nat)
    requires Main(cfg, ext, slides, images).result.Ok?
    requires k < |slides|
    ensures cfg.apiKey.Some? && |images| == |slides|
    ensures var r := Main(cfg, ext, slides, images);
      var narrations := r.result.value.narrations;
      var request := NarrationCall(cfg.apiKey.value, ext, slides[k], images[k], Transcript(narrations[..k]));
      && r.events[EventsPerSlide * k] == PostChat(request)
      && ext.chat(request).choices.Some?
      && 0 < |ext.chat(request).choices.value|
      && narrations[k] == ext.chat(request).choices.value[0]
      && Fold(MainStep(cfg, ext), Zip(slides, images)[..k + 1]).script == Transcript(narrations[..k]) + narrations[k]
  {
    var r := Main(cfg, ext, slides, images);
    var narrations := r.result.value.narrations;
    MainSlide(cfg, ext, slides, images, k);
    SlideCompletion(cfg, ext, k, slides[k], images[k], Transcript(narrations[..k]));
    assert r.events[EventsPerSlide * k + 0] == ProcessSlide(cfg, ext, k, slides[k], images[k], Transcript(narrations[..k])).events[0];
    MainRunningScript(cfg, ext, slides, images, k + 1);
    assert narrations[..k + 1][..k] == narrations[..k];
  }

  /** In a successful run, the running transcript after the first `k` slides is their narrations joined in order. */
  lemma MainRunningScript(cfg: Config, ext: External, slides: seq<Slide>, images: seq<Image>, k: nat)
    requires Main(cfg, ext, slides, images).result.Ok?
    requires k <= |slides|
    ensures |images| == |slides|
    ensures Fold(MainStep(cfg, ext), Zip(slides, images)[..k]).script ==
      Transcript(Main(cfg, ext, slides, images).result.value.narrations[..k])
  {
    var deck := Zip(slides, images);
    MainStepWellBehaved(cfg, ext);
    FoldPrefix(MainStep(cfg, ext), deck, k);
    FoldScript(MainStep(cfg, ext), deck[..k]);
  }

  /**
   What slide `k`'s request body carries, read back from the payload: the
   previous transcript is the narrations of slides `0..k-1` — for slide 0 the
   empty string, not the beginning note — the notes are the notes page text
   or `''` when the slide has none, and the image is the slide's encoding.
   */
  lemma MainRequestContents(cfg: Config, ext: External, slides: seq<Slide>, images: seq<Image>, k: nat)
    requires Main(cfg, ext, slides, images).result.Ok?
    requires k < |slides|
    ensures |images| == |slides|
    ensures var r := Main(cfg, ext, slides, images);
      && r.events[EventsPerSlide * k].PostChat?
      && var payload := r.events[EventsPerSlide * k].chat.Body();
      && ContextOf(payload) == Some(Some(Transcript(r.result.value.narrations[..k])))
      && (k == 0 ==> ContextOf(payload) == Some(Some("")))
      && NotesOf(payload) == Some(Notes(slides[k]))
      && (slides[k].notesPage.None? ==> NotesOf(payload) == Some(""))
      && ImageOf(payload) == Some(ext.encode(images[k]))
  {
    var narrations := Main(cfg, ext, slides, images).result.value.narrations;
    MainNarration(cfg, ext, slides, images, k);
    PayloadRoundTrip(ext.encode(images[k]), Notes(slides[k]), Some(Transcript(narrations[..k])));
  }

  /**
   Whatever the outcome, no request body of a run carries the
   beginning-of-presentation message: its context is always a previous
   transcript.
   */
  lemma MainNeverSendsBeginning(cfg: Config, ext: External, slides: seq<Slide>, images: seq<Image>, k: nat)
    requires k < |Main(cfg, ext, slides, images).events|
    requires Main(cfg, ext, slides, images).events[k].PostChat?
    ensures var body := Main(cfg, ext, slides, images).events[k].chat.Body();
      && ContextOf(body) != Some(None)
      && body.messages[1] != ContextMessage(None)
  {
    var request := Main(cfg, ext, slides, images).events[k].chat;
    assert request.prev.Some?;
    TranscriptNeverBeginning(request.image64, request.notes, request.prev.value);
  }

  /**
   The clips of a successful run: slide `k`'s repackaging writes entry `k` of
   the clip list, and the final concatenation reads that list in ascending
   slide order — when the working area's name has no `|`, the `concat:`
   argument splits back into exactly the list, with `n - 1` separators.
   */
  lemma MainClips(cfg: Config, ext: External, slides: seq<Slide>, images: seq<Image>)
    requires Main(cfg, ext, slides, images).result.Ok?
    ensures var r := Main(cfg, ext, slides, images);
      var clips := Paths.ClipList(cfg.tempPath, |images|);
      && |clips| == |slides|
      && (forall k :: 0 <= k < |slides| ==>
            r.events[EventsPerSlide * k + 5] == Repackage(Paths.FramePath(cfg.tempPath, k, Paths.MuxExt), clips[k]))
      && r.events[|r.events| - 1] == ConcatClips(Paths.ConcatArgument(clips), cfg.outputPath)
    ensures 1 <= |slides| && '|' !in cfg.tempPath ==>
      var arg := Main(cfg, ext, slides, images).events[|Main(cfg, ext, slides, images).events| - 1].input;
      && Text.Split(arg[|Paths.ConcatProtocol|..], '|') == Paths.ClipList(cfg.tempPath, |slides|)
      && Text.Occurrences(arg, '|') == |slides| - 1
  {
    var r := Main(cfg, ext, slides, images);
    var clips := Paths.ClipList(cfg.tempPath, |images|);
    forall k | 0 <= k < |slides|
      ensures r.events[EventsPerSlide * k + 5] == Repackage(Paths.FramePath(cfg.tempPath, k, Paths.MuxExt), clips[k])
    {
      MainSlide(cfg, ext, slides, images, k);
      var narrations := r.result.value.narrations;
      SlideCompletion(cfg, ext, k, slides[k], images[k], Transcript(narrations[..k]));
    }
    if 1 <= |slides| && '|' !in cfg.tempPath {
      Paths.ClipListConcatShape(cfg.tempPath, |slides|);
    }
  }

  /** After the slide counts matched, a run stopped at slide `done`: no clip for it or any later slide, and no concatenation. */
  predicate StoppedAt(events: seq<Event>, done: nat)
  {
    && EventsPerSlide * done <= |events| < EventsPerSlide * (done + 1)
    && (forall k :: EventsPerSlide * done <= k < |events| ==> !events[k].Repackage?)
    && (forall k :: 0 <= k < |events| ==> !events[k].ConcatClips?)
  }

  /**
   A failed run whose slide counts matched stopped at some slide: every
   effect belongs to that slide or an earlier one, neither it nor any later
   slide has a clip, and no video is assembled.
   */
  lemma MainFailure(cfg: Config, ext: External, slides: seq<Slide>, images: seq<Image>)
    requires |slides| == |images|
    requires Main(cfg, ext, slides, images).result.Err?
    ensures exists done :: 0 <= done < |slides| && StoppedAt(Main(cfg, ext, slides, images).events, done)
  {
    MainStepWellBehaved(cfg, ext);
    FoldFailure(MainStep(cfg, ext), Zip(slides, images));
    var p := Fold(MainStep(cfg, ext), Zip(slides, images));
    assert StoppedAt(Main(cfg, ext, slides, images).events, |p.narrations|);
  }

  /** Without the key, a non-empty deck fails at the first slide before any request. */
  lemma MainMissingKey(cfg: Config, ext: External, slides: seq<Slide>, images: seq<Image>)
    requires cfg.apiKey.None?
    requires |slides| == |images| && 1 <= |slides|
    ensures Main(cfg, ext, slides, images) == Step(Err(MissingApiKey), [])
  {
    var deck := Zip(slides, images);
    var step := MainStep(cfg, ext);
    assert deck[..1][..0] == [];
    assert step(0, deck[0].0, deck[0].1, "") == Step(Err(MissingApiKey), []);
    assert Fold(step, deck[..1]) == Progress("", [], [], Some(MissingApiKey));
    FoldStopsAtFailure(step, deck, 1);
  }

  /** An empty deck makes no request and concatenates the empty clip list. */
  lemma MainEmptyDeck(cfg: Config, ext: External)
    ensures Main(cfg, ext, [], []) ==
      Step(Ok(RunOutput("", [])), [ConcatClips(Paths.ConcatProtocol, cfg.outputPath)])
  {
    assert Zip([], []) == [];
    assert Paths.ClipList(cfg.tempPath, 0) == [];
    assert Paths.ConcatArgument([]) == Paths.ConcatProtocol;
  }

  /** When every iteration completes, whatever it is handed, the whole loop completes. */
  lemma {:induction false} FoldSucceeds(step: SlideStep, deck: seq<(Slide, Image)>)
    requires forall i: nat, slide: Slide, image: Image, script: string :: step(i, slide, image, script).result.Ok?
    ensures Fold(step, deck).failure.None?
    decreases |deck|
  {
    if |deck| > 0 {
      var n := |deck| - 1;
      FoldSucceeds(step, deck[..n]);
      var p := Fold(step, deck[..n]);
      assert step(n, deck[n].0, deck[n].1, p.script).result.Ok?;
    }
  }

  /**
   With the key set, a narrator that always answers with at least one choice
   and a speech service that always answers 200, `main` completes every slide:
   one narration and one clip per slide, and the last effect concatenates the
   whole clip list into the output.
   */
  lemma MainSucceeds(cfg: Config, ext: External, slides: seq<Slide>, images: seq<Image>)
    requires |slides| == |images|
    requires cfg.apiKey.Some?
    requires forall request :: ext.chat(request).choices.Some? && 0 < |ext.chat(request).choices.value|
    requires forall request :: ext.speech(request).status == SuccessStatus
    ensures var r := Main(cfg, ext, slides, images);
      && r.result.Ok?
      && |r.result.value.narrations| == |slides|
      && |r.events| == EventsPerSlide * |slides| + 1
      && r.events[|r.events| - 1] ==
           ConcatClips(Paths.ConcatArgument(Paths.ClipList(cfg.tempPath, |slides|)), cfg.outputPath)
  {
    var step := MainStep(cfg, ext);
    forall i: nat, slide: Slide, image: Image, script: string
      ensures step(i, slide, image, script).result.Ok?
    {
      var asked := AskOpenAI(cfg.apiKey, ext.chat, ext.encode(image), Notes(slide), Some(script));
      assert asked.result.Ok?;
      var audio := GenerateAndSaveAudio(cfg.apiKey, ext.speech, asked.result.value,
                                        Paths.FramePath(cfg.tempPath, i, Paths.AudioExt));
      assert audio.result.Ok?;
    }
    FoldSucceeds(step, Zip(slides, images));
  }

  /**
   A non-empty deck whose first narration reply has no `choices` stops right
   there: one request sent, nothing written, and the error carries that
   reply's status code and body text.
   */
  lemma MainFirstReplyWithoutChoices(cfg: Config, ext: External, slides: seq<Slide>, images: seq<Image>)
    requires |slides| == |images| && 1 <= |slides|
    requires cfg.apiKey.Some?
    requires ext.chat(NarrationCall(cfg.apiKey.value, ext, slides[0], images[0], "")).choices.None?
    ensures var request := NarrationCall(cfg.apiKey.value, ext, slides[0], images[0], "");
      var reply := ext.chat(request);
      Main(cfg, ext, slides, images) == Step(Err(RequestFailed(reply.status, reply.body)), [PostChat(request)])
  {
    var deck := Zip(slides, images);
    var step := MainStep(cfg, ext);
    var request := NarrationCall(cfg.apiKey.value, ext, slides[0], images[0], "");
    var reply := ext.chat(request);
    assert deck[..1][..0] == [];
    assert step(0, deck[0].0, deck[0].1, "") == Step(Err(RequestFailed(reply.status, reply.body)), [PostChat(request)]);
    assert Fold(step, deck[..1]) == Progress("", [], [PostChat(request)], Some(RequestFailed(reply.status, reply.body)));
    FoldStopsAtFailure(step, deck, 1);
  }

  /**
   The loop of `main` as written, statement by statement: ask for the
   narration, append it to `full_script` at once, save the still, synthesise
   the audio and encode the clip. It performs the same effects and returns
   the same outcome as the fold.
   */
  method Convert(cfg: Config, ext: External, slides: seq<Slide>, images: seq<Image>) returns (r: Step<RunOutput>)
    ensures r == Main(cfg, ext, slides, images)
  {
    if |images| != |slides| {
      return Step(Err(CountMismatch(|images|, |slides|)), []);
    }
    var step := MainStep(cfg, ext);
    var deck := Zip(slides, images);
    var fullScript := "";
    var narrations: seq<string> := [];
    var events: seq<Event> := [];
    var i := 0;
    while i < |slides|
      invariant 0 <= i <= |slides|
      invariant fullScript == Transcript(narrations)
      invariant Fold(step, deck[..i]) == Progress(fullScript, narrations, events, None)
    {
      ghost var s := ProcessSlide(cfg, ext, i, slides[i], images[i], fullScript);
      assert deck[..i + 1][..i] == deck[..i];
      assert deck[..i + 1][i] == (slides[i], images[i]);
      assert Fold(step, deck[..i + 1]) == Advance(step, Fold(step, deck[..i]), i, slides[i], images[i]);
      var notes := Notes(slides[i]);
      var imagePath := Paths.FramePath(cfg.tempPath, i, Paths.ImageExt);
      var audioPath := Paths.FramePath(cfg.tempPath, i, Paths.AudioExt);
      var asked := AskOpenAI(cfg.apiKey, ext.chat, ext.encode(images[i]), notes, Some(fullScript));
      if asked.result.Err? {
        FoldStopsAtFailure(step, deck, i + 1);
        return Step(Err(asked.result.error), events + asked.events);
      }
      var transcript := asked.result.value;
      fullScript := fullScript + transcript;
      var slideEvents := asked.events + [SaveImage(imagePath, images[i])];
      var audio := GenerateAndSaveAudio(cfg.apiKey, ext.speech, transcript, audioPath);
      slideEvents := slideEvents + audio.events;
      if audio.result.Err? {
        assert s == Step(Err(audio.result.error), slideEvents);
        FoldStopsAtFailure(step, deck, i + 1);
        return Step(Err(audio.result.error), events + slideEvents);
      }
      slideEvents := slideEvents + FfmpegCall(imagePath, audioPath, cfg.tempPath, i);
      assert s == Step(Ok(transcript), slideEvents);
      narrations := narrations + [transcript];
      events := events + slideEvents;
      i := i + 1;
    }
    assert deck[..i] == deck;
    var clips := Paths.ClipList(cfg.tempPath, |images|);
    r := Step(Ok(RunOutput(fullScript, narrations)),
              events + [FfmpegConcat(Paths.ConcatArgument(clips), cfg.outputPath)]);
  }
}

=== FILE: services.dfy ===
/**
 The two web-service calls of the pipeline (`ask_openai`,
 `generate_and_save_audio`) and the two encoder invocations (`ffmpeg_call`,
 `ffmpeg_concat`), with the services themselves passed in as functions from
 request to reply. Every call returns the effects it performed, in order, as
 a list of events.
 */
module Services {
  import opened Common
  import opened ChatPayload
  import Paths

  type Bytes = seq<bv8>

  /** A page bitmap rendered from the deck; its pixels are opaque here. */
  datatype Image = Image(pixels: Bytes)

  datatype Error =
    | MissingApiKey                              // ValueError: the key variable is unset
    | RequestFailed(status: int, body: string)   // Exception carrying the status code and body text
    | EmptyChoices                               // IndexError on `choices[0]`
    | CountMismatch(images: nat, slides: nat)    // AssertionError in `main`; the source's bare assert carries no message, the counts are the model's

  datatype Result<T> = Ok(value: T) | Err(error: Error)

  /**
   A call of `ask_openai` as it reaches the service: the bearer header and the
   three arguments the JSON body is built from. The body itself is `Body()`;
   since `BuildPayload` is injective (`ChatPayload.PayloadRoundTrip`), a
   service answering bodies is the same thing as one answering these fields.
   */
  datatype ChatRequest = ChatRequest(authorization: string, image64: string, notes: string, prev: Option<string>)
  {
    function Body(): Payload {
      BuildPayload(image64, notes, prev)
    }
  }

  /**
   The part of a chat-completion reply the code looks at: the status code and
   body text (only used in the error message), and `choices` with each
   choice's `message.content`, or `None` when the JSON has no `choices` key.
   */
  datatype ChatReply = ChatReply(status: int, body: string, choices: Option<seq<string>>)

  datatype SpeechBody = SpeechBody(model: string, input: string, voice: string, speed: real, responseFormat: string)
  datatype SpeechRequest = SpeechRequest(authorization: string, speech: SpeechBody)
  datatype SpeechReply = SpeechReply(status: int, body: string, content: Bytes)

  /** An observable effect, in the order it happens. */
  datatype Event =
    | PostChat(chat: ChatRequest)
    | PostSpeech(tts: SpeechRequest)
    | SaveImage(imagePath: string, image: Image)
    | WriteAudio(audioPath: string, audio: Bytes)
    | Mux(muxImage: string, muxAudio: string, muxOut: string)
    | Repackage(repackIn: string, clip: string)
    | ConcatClips(input: string, video: string)

  /** A call's outcome together with the effects it performed. */
  datatype Step<T> = Step(result: Result<T>, events: seq<Event>)

  const SpeechModel := "tts-1-hd"
  const SpeechVoice := "echo"
  const SpeechSpeed: real := 1.1
  const SpeechFormat := "aac"
  const SuccessStatus := 200

  function Authorization(apiKey: string): string {
    "Bearer " + apiKey
  }

  /** The request `ask_openai` sends with key `apiKey`. */
  function ChatCall(apiKey: string, image64: string, notes: string, prev: Option<string>): ChatRequest {
    ChatRequest(Authorization(apiKey), image64, notes, prev)
  }

  /**
   The request `ask_openai` sends: the key as a bearer token, and a body for
   the vision model with a 500-token cap from which the previous transcript,
   the notes and the encoded image all read back unchanged.
   */
  lemma ChatCallBody(apiKey: string, image64: string, notes: string, prev: Option<string>)
    ensures var r := ChatCall(apiKey, image64, notes, prev);
      && r.authorization == "Bearer " + apiKey
      && r.Body().model == ChatModel
      && r.Body().maxTokens == MaxTokens
      && ContextOf(r.Body()) == Some(prev)
      && NotesOf(r.Body()) == Some(notes)
      && ImageOf(r.Body()) == Some(image64)
  {
    PayloadRoundTrip(image64, notes, prev);
  }

  /**
   `ask_openai`: with no key it fails before sending anything; otherwise it
   sends one request and returns the first choice's content exactly when the
   reply has a non-empty `choices`, whatever the status code.
   */
  function AskOpenAI(apiKey: Option<string>, chat: ChatRequest -> ChatReply,
                     image64: string, notes: string, prev: Option<string>): (s: Step<string>)
    ensures apiKey.None? ==> s == Step(Err(MissingApiKey), [])
    ensures apiKey.Some? ==> s.events == [PostChat(ChatCall(apiKey.value, image64, notes, prev))]
    ensures s.result.Ok? <==>
      apiKey.Some? && (var reply := chat(ChatCall(apiKey.value, image64, notes, prev));
                       reply.choices.Some? && |reply.choices.value| > 0)
    ensures s.result.Ok? ==>
      s.result.value == chat(ChatCall(apiKey.value, image64, notes, prev)).choices.value[0]
    ensures apiKey.Some? && chat(ChatCall(apiKey.value, image64, notes, prev)).choices == Some([]) ==>
      s.result == Err(EmptyChoices)
    ensures apiKey.Some? && chat(ChatCall(apiKey.value, image64, notes, prev)).choices.None? ==>
      (var reply := chat(ChatCall(apiKey.value, image64, notes, prev));
       s.result == Err(RequestFailed(reply.status, reply.body)))
  {
    match apiKey
    case None => Step(Err(MissingApiKey), [])
    case Some(key) =>
      var request := ChatCall(key, image64, notes, prev);
      var reply := chat(request);
      var sent := [PostChat(request)];
      match reply.choices
      case None => Step(Err(RequestFailed(reply.status, reply.body)), sent)
      case Some(contents) =>
        if |contents| == 0 then Step(Err(EmptyChoices), sent) else Step(Ok(contents[0]), sent)
  }

  /** The narration outcome does not depend on the reply's status code. */
  lemma ChatStatusIgnored(apiKey: Option<string>, chat: ChatRequest -> ChatReply, chat': ChatRequest -> ChatReply,
                          image64: string, notes: string, prev: Option<string>)
    requires forall r :: chat(r).choices == chat'(r).choices && chat(r).body == chat'(r).body
    ensures AskOpenAI(apiKey, chat, image64, notes, prev).result.Ok? <==>
            AskOpenAI(apiKey, chat', image64, notes, prev).result.Ok?
    ensures AskOpenAI(apiKey, chat, image64, notes, prev).result.Ok? ==>
            AskOpenAI(apiKey, chat, image64, notes, prev) == AskOpenAI(apiKey, chat', image64, notes, prev)
  {
  }

  /** The request `generate_and_save_audio` sends with key `apiKey`. */
  function SpeechCall(apiKey: string, text: string): SpeechRequest {
    SpeechRequest(Authorization(apiKey), SpeechBody(SpeechModel, text, SpeechVoice, SpeechSpeed, SpeechFormat))
  }

  /**
   `generate_and_save_audio`: with no key it fails before sending anything;
   otherwise it sends one request and writes the reply's bytes to `audioPath`
   exactly when the status is 200, returning that path.
   */
  function GenerateAndSaveAudio(apiKey: Option<string>, speech: SpeechRequest -> SpeechReply,
                                text: string, audioPath: string): (s: Step<string>)
    ensures apiKey.None? ==> s == Step(Err(MissingApiKey), [])
    ensures apiKey.Some? ==> 1 <= |s.events| && s.events[0] == PostSpeech(SpeechCall(apiKey.value, text))
    ensures s.result.Ok? <==> apiKey.Some? && speech(SpeechCall(apiKey.value, text)).status == SuccessStatus
    ensures s.result.Ok? ==>
      s.result.value == audioPath &&
      s.events == [PostSpeech(SpeechCall(apiKey.value, text)),
                   WriteAudio(audioPath, speech(SpeechCall(apiKey.value, text)).content)]
    ensures s.result.Err? ==> forall k :: 0 <= k < |s.events| ==> !s.events[k].WriteAudio?
    ensures s.result.Err? && apiKey.Some? ==> s.events == [PostSpeech(SpeechCall(apiKey.value, text))]
    ensures s.result.Err? && apiKey.Some? ==>
      (var reply := speech(SpeechCall(apiKey.value, text));
       s.result.error == RequestFailed(reply.status, reply.body))
  {
    match apiKey
    case None => Step(Err(MissingApiKey), [])
    case Some(key) =>
      var request := SpeechCall(key, text);
      var reply := speech(request);
      if reply.status != SuccessStatus then Step(Err(RequestFailed(reply.status, reply.body)), [PostSpeech(request)])
      else Step(Ok(audioPath), [PostSpeech(request), WriteAudio(audioPath, reply.content)])
  }

  /**
   `ffmpeg_call`: mux the still and the audio into `frame_{i}.mp4`, then
   repackage that into the transport-stream clip `frame_{i}.ts`. The exit
   codes are not inspected, so both effects always happen; the clip never
   overwrites the intermediate file it is read from.
   */
  function FfmpegCall(imagePath: string, audioPath: string, tempPath: string, i: nat): (es: seq<Event>)
    ensures |es| == 2 && es[0].Mux? && es[1].Repackage?
    ensures es[0].muxImage == imagePath && es[0].muxAudio == audioPath
    ensures es[0].muxOut == Paths.FramePath(tempPath, i, Paths.MuxExt)
    ensures es[1].repackIn == es[0].muxOut
    ensures es[1].clip == Paths.FramePath(tempPath, i, Paths.ClipExt)
    ensures es[1].clip != es[1].repackIn
  {
    var mp4 := Paths.FramePath(tempPath, i, Paths.MuxExt);
    var ts := Paths.FramePath(tempPath, i, Paths.ClipExt);
    Paths.FramePathsDistinct(tempPath, i, Paths.ClipExt, i, Paths.MuxExt);
    [Mux(imagePath, audioPath, mp4), Repackage(mp4, ts)]
  }

  /**
   `ffmpeg_concat`: one encoder run that stream-copies the clips named by the
   `concat:` argument, passed through unchanged, into the output file.
   */
  function FfmpegConcat(concatArgument: string, outPath: string): (e: Event)
    ensures e.ConcatClips? && e.input == concatArgument && e.video == outPath
  {
    ConcatClips(concatArgument, outPath)
  }
}

=== FILE: text.dfy ===
/**
 Character-level string helpers the pipeline relies on: Python's `str(n)` for a
 non-negative int (used by `'frame_{}.ts'.format(i)`), and `sep.join(parts)` /
 `s.split(sep)` for a one-character separator (used for the `concat:` argument).
 */
module Text {

  predicate IsDigit(c: char) {
    '0' <= c <= '9'
  }

  predicate AllDigits(s: string) {
    forall k :: 0 <= k < |s| ==> IsDigit(s[k])
  }

  function DigitChar(d: nat): (c: char)
    requires d < 10
    ensures IsDigit(c) && DigitValue(c) == d
  {
    (d + '0' as int) as char
  }

  function DigitValue(c: char): nat
    requires IsDigit(c)
  {
    c as int - '0' as int
  }

  /** `str(n)`: decimal digits, most significant first, no leading zero. */
  function Decimal(n: nat): (s: string)
    ensures 1 <= |s|
    ensures AllDigits(s)
    ensures s[0] == '0' ==> n == 0 && s == "0"
    decreases n
  {
    if n < 10 then [DigitChar(n)] else Decimal(n / 10) + [DigitChar(n % 10)]
  }

  /** `int(s)` on a string of digits; the inverse of `Decimal`. */
  function ParseDecimal(s: string): nat
    requires AllDigits(s)
  {
    if |s| == 0 then 0 else 10 * ParseDecimal(s[..|s| - 1]) + DigitValue(s[|s| - 1])
  }

  lemma {:induction false} DecimalRoundTrip(n: nat)
    ensures ParseDecimal(Decimal(n)) == n
  {
    if n >= 10 {
      var s := Decimal(n);
      assert s[..|s| - 1] == Decimal(n / 10);
      DecimalRoundTrip(n / 10);
    }
  }

  /** Distinct indices print differently. */
  lemma DecimalInjective(m: nat, n: nat)
    ensures Decimal(m) == Decimal(n) ==> m == n
  {
    DecimalRoundTrip(m);
    DecimalRoundTrip(n);
  }

  /** Number of occurrences of `c` in `s` (Python's `s.count(c)`). */
  function Occurrences(s: string, c: char): nat {
    multiset(s)[c]
  }

  /** The combined length of `parts`. */
  function TotalLength(parts: seq<string>): nat
  {
    if |parts| == 0 then 0 else |parts[0]| + TotalLength(parts[1..])
  }

  /**
   `sep.join(parts)` for a one-character separator: empty for no parts,
   otherwise starting with the first part, and as long as all the parts
   together plus one character between each pair of neighbours.
   */
  function JoinWith(sep: char, parts: seq<string>): (r: string)
    ensures |parts| == 0 ==> r == ""
    ensures 1 <= |parts| ==> parts[0] <= r && |r| == TotalLength(parts) + |parts| - 1
  {
    if |parts| == 0 then ""
    else if |parts| == 1 then parts[0]
    else parts[0] + [sep] + JoinWith(sep, parts[1..])
  }

  /** Index of the first `c` in `s`. */
  function IndexOf(s: string, c: char): (i: nat)
    requires c in s
    ensures i < |s| && s[i] == c && c !in s[..i]
  {
    if s[0] == c then 0
    else
      var j := IndexOf(s[1..], c);
      assert s[..j + 1] == [s[0]] + s[1..][..j];
      1 + j
  }

  /** `s.split(sep)` for a one-character separator: never empty, `""` gives `[""]`. */
  function Split(s: string, sep: char): (parts: seq<string>)
    ensures 1 <= |parts|
    decreases |s|
  {
    if sep !in s then [s]
    else
      var i := IndexOf(s, sep);
      [s[..i]] + Split(s[i + 1..], sep)
  }

  /** The first separator of `head + [sep] + rest` is the one after `head`. */
  lemma FirstSeparator(head: string, sep: char, rest: string)
    requires sep !in head
    ensures var s := head + [sep] + rest;
      sep in s && IndexOf(s, sep) == |head| && s[..|head|] == head && s[|head| + 1..] == rest
  {
    var s := head + [sep] + rest;
    assert s[|head|] == sep;
    assert s[..|head|] == head;
    assert s[|head| + 1..] == rest;
  }

  /** Splitting after a separator-free head peels that head off. */
  lemma SplitAfterHead(head: string, sep: char, rest: string)
    requires sep !in head
    ensures Split(head + [sep] + rest, sep) == [head] + Split(rest, sep)
  {
    FirstSeparator(head, sep, rest);
  }

  lemma SeparatorCount(head: string, sep: char, rest: string)
    requires sep !in head
    ensures Occurrences(head + [sep] + rest, sep) == Occurrences(rest, sep) + 1
  {
    assert multiset(head + [sep] + rest) == multiset(head) + multiset([sep]) + multiset(rest);
    assert multiset(head)[sep] == 0;
  }

  /** Joining separator-free parts and splitting again gives the parts back, in order. */
  lemma {:induction false} SplitJoin(sep: char, parts: seq<string>)
    requires 1 <= |parts|
    requires forall k :: 0 <= k < |parts| ==> sep !in parts[k]
    ensures Split(JoinWith(sep, parts), sep) == parts
  {
    if |parts| == 1 {
      assert JoinWith(sep, parts) == parts[0];
    } else {
      var rest := JoinWith(sep, parts[1..]);
      assert JoinWith(sep, parts) == parts[0] + [sep] + rest;
      SplitJoin(sep, parts[1..]);
      SplitAfterHead(parts[0], sep, rest);
      assert parts == [parts[0]] + parts[1..];
    }
  }

  /** Joining separator-free parts puts exactly one separator between each pair. */
  lemma {:induction false} JoinSeparators(sep: char, parts: seq<string>)
    requires 1 <= |parts|
    requires forall k :: 0 <= k < |parts| ==> sep !in parts[k]
    ensures Occurrences(JoinWith(sep, parts), sep) == |parts| - 1
  {
    if |parts| > 1 {
      var rest := JoinWith(sep, parts[1..]);
      assert JoinWith(sep, parts) == parts[0] + [sep] + rest;
      JoinSeparators(sep, parts[1..]);
      SeparatorCount(parts[0], sep, rest);
    }
  }
}
